=== FILE: README.md ===
# Résumé text extraction and chat adapter — Dafny model

This project models the logic of a Telegram bot that takes a résumé file and
replies with its plain text. The model covers two parts:

- **The text extractor** (`utils/extract_text.py`). It takes the extension
  of the lower-cased path the way `os.path.splitext` does. It sends `.pdf`,
  `.docx` and `.txt` to their handlers and rejects everything else with
  `ValueError("Unsupported file type. Please provide PDF, DOCX, or TXT.")`.
  Every handler ends by stripping whitespace from both edges. The DOCX
  handler also drops empty paragraphs and joins the rest with `"\n"`.
- **The pure parts of the chat adapter** (`bot/main.py`). These are the
  upload filter (the lower-cased file name must end in `.pdf`, `.docx` or
  `.txt`), the download path, the reply text (a 3500-character preview plus
  `"\n..."`, or the fallback `"Текст не обнаружен."`), and the `apply:`
  callback data on the vacancy buttons with its parser.

The parsers are opaque inputs. For the file at hand, the `Readers` record
holds what each reader returns:

- pdfminer's text layer, as a string;
- python-docx's paragraph texts, as a `seq<string>`;
- the file contents as read in text mode (UTF-8 decoding, universal
  newlines), as a string.

Each field may instead hold the message of the exception the reader raises.
Strings are `seq<char>` over Unicode code points, so lengths and slices
match Python's `str`.

Modules: `Wrappers` (Option/Result), `PyStr` (the `str` methods used:
`strip`, `lower`, `endswith`, `startswith`, `join` and `split(":", 1)`, the
last through `find`; `rfind` for `splitext`; and `split(sep)` as the inverse
of the join), `PyPath` (`os.path.splitext` and a two-argument `os.path.join`),
`ExtractText` and `Bot`.

**The filter and the extractor disagree** on one class of names. The bot
accepts any name that ends with a supported suffix. `splitext` ignores
leading dots of a base name, so a name like `.pdf` or `..docx` has no
extension. Such a file passes the filter, is downloaded, and the user is
then told `Не удалось извлечь текст: Unsupported file type…`.
`Bot.FilterExtractorMismatch` proves this is the only disagreement for names
without `/`; `Bot.DotOnlyNameReply` and `Bot.ProperNameReply` state the two
replies the user then gets. `Bot.AcceptedNeverMisrouted` proves that no
accepted name ever reaches the wrong handler.

**How the code behaves in three places the model follows closely:**

- There is no typed error taxonomy. There is the `ValueError` for
  unsupported types, and whatever exception a reader raises. The model names
  them `UnsupportedFileType` and `ReaderFailed(format, cause)`.
- The TXT reader drops undecodable bytes (`errors="ignore"`); it does not
  substitute them.
- The extension is taken from the local download path, which the bot builds
  from the lower-cased upload name.

## Model

| member | source | states |
|---|---|---|
| PyStr.IsSpace | utils/extract_text.py:19 | the characters `strip()` removes: exactly CPython's `str.isspace()` set (bidirectional class WS, B or S, or category Zs) |
| PyStr.Strip | utils/extract_text.py:19 | `strip()` leaves no whitespace at either edge and never lengthens the text |
| PyStr.StripWindow | utils/extract_text.py:26 | what `strip()` keeps is one contiguous window of the input, and everything cut off on both sides is whitespace |
| PyStr.StripUnique | utils/extract_text.py:31 | any window with whitespace-only margins and no edge whitespace is exactly what `strip()` returns, so only the edges are touched |
| PyStr.TrimStartAt | utils/extract_text.py:19 | the left half of `strip()` removes exactly the whitespace before the first non-whitespace character |
| PyStr.TrimEndAt | utils/extract_text.py:19 | the right half of `strip()` removes exactly the whitespace after the last non-whitespace character |
| PyStr.StripIdempotent | utils/extract_text.py:19 | stripping a stripped text changes nothing |
| PyStr.StripFixed | utils/extract_text.py:26 | a text without edge whitespace is left unchanged by `strip()` |
| PyStr.StripEmptyIff | utils/extract_text.py:31 | a text strips to "" exactly when it is all whitespace (the Python `str.isspace` set) |
| PyStr.Lower | utils/extract_text.py:7 | `lower()` keeps the length of the text; it applies `PyStr.LowerChar` to each code point (lemma `PyStr.LowerAt`) |
| PyStr.LowerChar | utils/extract_text.py:7 | the case map of one code point: `.` and `/` are the only code points that map to `.` and `/`; lower-case ASCII letters stay; an upper-case ASCII letter maps to the lower-case letter at the same position; every code point outside the ASCII, Latin-1 and basic Cyrillic capital ranges stays (the Latin-1 and Cyrillic offsets are in the definition; `PyStr.LowerCharIdempotent`: mapping twice equals mapping once) |
| PyStr.LowerAt | utils/extract_text.py:7 | `lower()` maps each code point independently (true of the modelled ranges; see "## Left out") |
| PyStr.LowerIdempotent | utils/extract_text.py:7 | lower-casing twice equals lower-casing once |
| PyStr.LowerConcat | bot/main.py:62 | `lower()` distributes over concatenation (true of the modelled ranges; see "## Left out") |
| PyStr.LowerKeepsSlashes | bot/main.py:70 | lower-casing neither adds nor removes a path separator |
| PyStr.EndsWith | bot/main.py:63 | `s.endswith(suffix)`: the last `len(suffix)` characters of `s` are `suffix` |
| PyStr.StartsWith | bot/main.py:107 | `s.startswith(prefix)`: the first `len(prefix)` characters of `s` are `prefix` |
| PyStr.RFind | utils/extract_text.py:7 | the index of the last occurrence of a character, or -1 when there is none |
| PyStr.Find | bot/main.py:109 | the index of the first occurrence of a character, or -1 when it is absent |
| PyStr.Join | utils/extract_text.py:25 | `"\n".join(parts)` starts with the first part and ends with the last; one part is returned as is and no parts give "" |
| PyStr.Split | utils/extract_text.py:25 | `str.split(sep)` yields at least one part and no part contains the separator |
| PyStr.SplitJoin | utils/extract_text.py:25 | splitting a `"\n".join` on `"\n"` gives back the parts, if no part contains a newline |
| PyPath.SplitExt | utils/extract_text.py:7 | `splitext` splits the path into root + extension; the extension is empty or is a dot followed by no dot and no slash |
| PyPath.SplitExtScan | utils/extract_text.py:7 | the scanning loop of `splitext` over the leading dots of the base name computes the same split |
| PyPath.SplitExtIff | utils/extract_text.py:7 | the extension starts at position n iff p[n] is a dot, no dot or slash follows, and the same path component has a non-dot character before n |
| PyPath.SplitExtEmptyIff | utils/extract_text.py:14 | the extension is empty iff no position is an extension start, e.g. when the base name has only dots before its last dot |
| PyPath.SplitExtOfSuffix | utils/extract_text.py:7 | a path ending in a dotted suffix has that suffix as its extension iff its base name has a non-dot character before the suffix; otherwise it has none |
| PyPath.StemInComponent | bot/main.py:70 | proof step for the download path: after a '/' separator, whether the base name has a non-dot before the suffix depends only on the file name |
| PyPath.JoinPath | bot/main.py:70 | `os.path.join(a, b)` ends with `b`, and an absolute `b` replaces `a` |
| ExtractText.FormatOfExtension | utils/extract_text.py:8-14 | exactly `.pdf`, `.docx` and `.txt` select a format, each its own; every other extension selects none |
| ExtractText.FormatOfSuffix | utils/extract_text.py:8-13 | each format's suffix dispatches to that format |
| ExtractText.Classify | utils/extract_text.py:7-14 | a path dispatched to a format has a lower-cased form ending in that format's suffix (the exact condition is `ExtractText.ClassifyIff`) |
| ExtractText.Handler | utils/extract_text.py:8-13 | each format's handler succeeds exactly when its own reader does, with that reader's output stripped (the DOCX paragraphs filtered and joined first), and otherwise fails with that reader's error under that format; the result never has edge whitespace |
| ExtractText.ExtractError.Message | bot/main.py:75 | `str(e)` of the extractor's exception: the `ValueError` text for an unsupported type, the reader's own message otherwise |
| ExtractText.ExtractTextFromFile | utils/extract_text.py:6-14 | fails with the unsupported-type error iff the extension is unsupported; a success has no edge whitespace; a reader failure comes from the dispatched format |
| ExtractText.ExtractFromPdf | utils/extract_text.py:17-19 | the PDF handler succeeds iff pdfminer does, with edge-stripped text; otherwise reports pdfminer's exception |
| ExtractText.ExtractFromDocx | utils/extract_text.py:22-26 | the DOCX handler succeeds iff python-docx does, with the stripped "\n"-join of the non-empty paragraphs (no edge whitespace); otherwise reports its exception |
| ExtractText.ExtractFromTxt | utils/extract_text.py:29-31 | the TXT handler succeeds iff reading does, with edge-stripped text; otherwise reports the read error |
| ExtractText.NonEmpty | utils/extract_text.py:24-25 | the kept paragraphs are exactly the paragraphs other than "", so whitespace-only ones stay |
| ExtractText.NonEmptyConcat | utils/extract_text.py:25 | the filter commutes with concatenation, so kept paragraphs keep their original order |
| ExtractText.DocxText | utils/extract_text.py:25-26 | the DOCX text has no edge whitespace |
| ExtractText.ExtractIgnoresCase | utils/extract_text.py:7-9 | a path and its lower-cased form dispatch the same way and give the same result |
| ExtractText.ClassifyIff | utils/extract_text.py:7-14 | a path reaches format f iff its lower-cased form ends in f's suffix and that suffix is an extension in the `splitext` sense |
| ExtractText.ExtensionSelects | utils/extract_text.py:8-13 | the extension selects f iff the path ends in f's suffix and that suffix starts an extension |
| ExtractText.ClassifyOfSuffix | utils/extract_text.py:7-14 | a path ending in a supported suffix reaches that handler iff its base name has a non-dot before the suffix, and is rejected otherwise |
| ExtractText.NoSuffixRejected | utils/extract_text.py:8-14 | a lower-case path that ends in none of `.pdf`, `.docx`, `.txt` is rejected |
| ExtractText.UnsupportedReadsNothing | utils/extract_text.py:14 | an unsupported path fails with the ValueError message whatever the readers would return |
| ExtractText.OnlyDispatchedReaderMatters | utils/extract_text.py:8-13 | files whose dispatched reader gives the same output give the same result |
| ExtractText.TxtIsStrippedContents | utils/extract_text.py:29-31 | the TXT path returns the stripped decoded text |
| ExtractText.DocxIsText | utils/extract_text.py:22-26 | the DOCX path returns the stripped "\n"-join of the non-empty paragraphs |
| ExtractText.PdfIsStrippedText | utils/extract_text.py:17-19 | the PDF path returns the stripped text layer |
| ExtractText.ResultIsNormalised | utils/extract_text.py:17-31 | stripping any successful result again leaves it unchanged |
| ExtractText.UpperCaseExample | utils/extract_text.py:7-9 | `A.PDF` and `a.pdf` both reach the PDF handler |
| ExtractText.DotOnlyBaseExample | utils/extract_text.py:7 | `d/.pdf` has no extension and is rejected |
| ExtractText.LeadingDotsExample | utils/extract_text.py:14 | `..pdf` has no extension and is rejected |
| ExtractText.OtherExtensionExample | utils/extract_text.py:14 | a name with no extension, or with `.odt`, is rejected |
| ExtractText.DocxDropsEmptyExample | utils/extract_text.py:24-26 | `["Hello", "", "World"]` reads as `"Hello\nWorld"` |
| ExtractText.DocxKeepsBlankExample | utils/extract_text.py:25 | a whitespace-only paragraph between others is kept |
| ExtractText.DocxAllEmpty | utils/extract_text.py:25-26 | a document with no paragraphs, or only empty ones, reads as "" |
| ExtractText.DocxParagraphsRecoverable | utils/extract_text.py:25 | if no paragraph contains a newline, splitting the joined text on "\n" gives back the kept paragraphs in order |
| Bot.NormalisedName | bot/main.py:62 | a missing name becomes ""; a present one is lower-cased, keeps its length, and is left unchanged by lowering it again |
| Bot.AcceptsUpload | bot/main.py:62-63 | an upload is accepted iff it has a name whose lower-cased form ends in `.pdf`, `.docx` or `.txt` |
| Bot.NameFormat | bot/main.py:63 | the suffix an accepted name ends with, and none for a rejected one |
| Bot.AcceptsIgnoresCase | bot/main.py:62-63 | a name and its lower-cased form are accepted or rejected together |
| Bot.DownloadPath | bot/main.py:62-71 | a download happens iff the filter accepts, and the local path ends with the lower-cased name |
| Bot.Preview | bot/main.py:79 | text of at most 3500 characters is sent as is; longer text becomes its first 3500 characters plus "\n..."; the preview is empty iff the text is |
| Bot.SuccessReply | bot/main.py:80 | empty text is answered with the fallback message, other text with its preview; the reply is never empty |
| Bot.ReplyFitsMessage | bot/main.py:78-80 | every reply to a successful extraction fits Telegram's 4096-character message, and a cut preview is exactly 3504 long |
| Bot.ReplyTo | bot/main.py:74-80 | a failed extraction is answered with the failure text followed by the exception's message; a successful one with `preview or "Текст не обнаружен."`; the reply is never empty |
| Bot.HandleDocument | bot/main.py:59-80 | a rejected upload gets the rejection text; otherwise the reply is the extractor's error prefixed by the failure text, or the success reply; the reply is never empty |
| Bot.MissingNameRejected | bot/main.py:62-65 | a document without a name is rejected and nothing is downloaded, whatever the file holds |
| Bot.AcceptedNameNonEmpty | bot/main.py:70 | an accepted name is never empty, so the `"resume"` fallback is never used |
| Bot.AcceptedNeverMisrouted | bot/main.py:63 | an accepted upload reaches the handler its suffix names, or is rejected by the extractor, never another handler |
| Bot.SuffixRoutesOrRejects | utils/extract_text.py:7-14 | a path ending in a lower-case name with f's suffix goes to f's handler or to none |
| Bot.FilterExtractorMismatch | bot/main.py:63 | for a name without '/', the download reaches its suffix's handler iff the name has a non-dot character before the suffix |
| Bot.ComponentRouting | utils/extract_text.py:7 | routing of a directory part followed by a file name depends only on the file name's part before the suffix |
| Bot.DotOnlyNameReply | bot/main.py:72-76 | an accepted name with only dots before its suffix is answered with the unsupported-type error, whatever the file holds |
| Bot.ProperNameReply | bot/main.py:70-80 | an accepted name without '/' with a non-dot before its suffix is answered from the reader of the format its suffix names, whatever the other readers hold |
| Bot.DotPdfUploadExample | bot/main.py:62-76 | a file named `.pdf` passes the filter and then gets the unsupported-type error |
| Bot.LoweredJoin | bot/main.py:70 | the lower-cased download path is a directory part, empty or ending in '/', followed by the name |
| Bot.LowerSuffix | bot/main.py:62 | lower-casing a name keeps a suffix that is already lower case |
| Bot.CallbackData | bot/main.py:91 | the callback data is `apply:` followed by exactly the id |
| Bot.VacancyIdOf | bot/main.py:109 | the parse fails iff the data has no ':'; otherwise it returns everything after the first ':' |
| Bot.CallbackRoundTrip | bot/main.py:91-109 | parsing `"apply:" + id` returns `id`, even when `id` contains ':' |
| Bot.ApplyCallbackParses | bot/main.py:107-109 | every callback routed to the apply handler parses to the text after `apply:` |
| Bot.VacancyButtons | bot/main.py:83-93 | one button per vacancy, in order, labelled with the title and carrying `apply:` data |
| Bot.ButtonsRoundTrip | bot/main.py:90-91 | pressing any vacancy button hands the apply handler that vacancy's id |
| Bot.ButtonCarriesId | bot/main.py:90-91 | the i-th button's callback data is built from the i-th vacancy's id |
| Bot.StubButtonsRoundTrip | bot/main.py:85-91 | the three stub buttons carry `v1`, `v2` and `v3` back to the apply handler |

## Left out

- The chat transport is not modelled: async handlers, `bot.get_file`, `bot.download`, replies, reply and inline keyboard layout, dispatcher polling and `main()`. These are I/O and UI.
- The `/start`, `/resume` and `/search` command handlers are not modelled. They only send fixed texts and keyboards.
- `.env` and token loading, and the `sys.path` bootstrap, are not modelled. They are process configuration.
- The temporary-directory lifecycle is not modelled. The directory name is a parameter.
- pdfminer's text-layer extraction, python-docx's archive parsing, and the text-mode read (UTF-8 decoding with `errors="ignore"` and the universal-newline translation of `\r\n` and `\r` to `\n`) are opaque inputs. These are foreign library behaviour.
- Failures of the download step, and other exceptions raised by the transport calls, are not modelled, because they happen in the transport. One such failure follows from the name: an accepted relative name containing '/' (such as `a/b.pdf`) makes `os.path.join` point into a subdirectory of the temporary directory that does not exist, so the download fails outside the `try` and the user gets no reply; `Bot.HandleDocument` still computes a reply for such names.
- PyStr.Lower: lower-cases only ASCII, Latin-1 and the basic Cyrillic block, not all of Unicode. Length-changing mappings such as `İ` and the context-dependent final sigma (`"ΑΣ".lower() == "ας"`) are not modelled; `PyStr.LowerAt` and `PyStr.LowerConcat` hold of this per-code-point mapping, not of CPython's full `lower()`. No character outside these ranges lowers to `.`, `/` or a letter of the three suffixes, so dispatch and filtering are unaffected.
- PyPath: models the POSIX flavour of `os.path` (`posixpath`, separator '/'); the Windows flavour, with drive letters and '\' separators, is not modelled.
- PyStr.Join: models only the single-character separator that the extractor uses.
- Bot.FilterExtractorMismatch: stated only for names without '/'. A name containing '/' is split across path components by `os.path.join`.
- Bot.DotOnlyNameReply: stated only for names without '/', for the same reason.
- Bot.ProperNameReply: stated only for names without '/', for the same reason.
- Bot.ReplyFitsMessage: bounds only replies to a successful extraction; the failure reply carries the exception's text and has no bound. It also counts code points. Telegram measures message length in UTF-16 code units, so text outside the Basic Multilingual Plane can exceed the limit.

=== FILE: bot.dfy ===
/**
 The pure fragments of the chat adapter in `bot/main.py`: the file-name
 filter that guards a download, the text sent back after extraction (a
 bounded preview with a continuation marker, or a fallback), and the
 `apply:` callback data written on the vacancy buttons and parsed back when
 a button is pressed.

 The messaging transport is outside the model: where the handler downloads
 the file and calls the extractor, the reply is computed from the same
 `Readers` the extractor would consult on the downloaded file.
 */
module Bot {
  import opened Wrappers
  import opened PyStr
  import opened PyPath
  import opened ExtractText

  const RejectMessage: string := "Поддерживаются только PDF, DOCX или TXT."
  const FailurePrefix: string := "Не удалось извлечь текст: "
  const NoTextMessage: string := "Текст не обнаружен."
  const DefaultLocalName: string := "resume"

  /** Characters of extracted text shown in a reply. */
  const PreviewLimit: nat := 3500
  /** Appended when the text was cut. */
  const ContinuationMarker: string := "\n..."
  /** Telegram's limit on the length of one text message. */
  const MessageLimit: nat := 4096

  // ---------------------------------------------------------------------------
  // Upload filter
  // ---------------------------------------------------------------------------

  /** `(doc.file_name or "").lower()`: a missing name counts as "". The
      result is already lower case and as long as the name it came from. */
  function NormalisedName(fileName: Option<string>): (name: string)
    ensures fileName.None? ==> name == ""
    ensures fileName.Some? ==> name == Lower(fileName.value)
    ensures |name| == if fileName.Some? then |fileName.value| else 0
    ensures Lower(name) == name
  {
    match fileName
    case None => ""
    case Some(n) =>
      LowerIdempotent(n);
      Lower(n)
  }

  /** The condition of `handle_document`: the lower-cased name ends with one
      of the three suffixes. */
  function AcceptsUpload(fileName: Option<string>): (ok: bool)
    ensures ok <==> fileName.Some? && exists f: Format :: EndsWith(Lower(fileName.value), Suffix(f))
  {
    var name := NormalisedName(fileName);
    assert EndsWith(name, ".pdf") ==> EndsWith(name, Suffix(Pdf));
    assert EndsWith(name, ".docx") ==> EndsWith(name, Suffix(Docx));
    assert EndsWith(name, ".txt") ==> EndsWith(name, Suffix(Txt));
    EndsWith(name, ".pdf") || EndsWith(name, ".docx") || EndsWith(name, ".txt")
  }

  /** The format named by the suffix an accepted name ends with. */
  function NameFormat(name: string): (r: Option<Format>)
    ensures r.Some? ==> EndsWith(name, Suffix(r.value))
    ensures r.None? ==> forall f: Format :: !EndsWith(name, Suffix(f))
  {
    if EndsWith(name, ".pdf") then Some(Pdf)
    else if EndsWith(name, ".docx") then Some(Docx)
    else if EndsWith(name, ".txt") then Some(Txt)
    else None
  }

  /** The filter is case-insensitive: a name and its lower-cased form are
      accepted or rejected together. */
  lemma {:induction false} AcceptsIgnoresCase(name: string)
    ensures AcceptsUpload(Some(Lower(name))) == AcceptsUpload(Some(name))
  {
    LowerIdempotent(name);
  }

  /** The local path the file is downloaded to:
      `os.path.join(td, file_name or "resume")`, or None when the filter
      rejects the upload and nothing is downloaded. */
  function DownloadPath(fileName: Option<string>, tempDir: string): (r: Option<string>)
    ensures r.Some? <==> AcceptsUpload(fileName)
    ensures r.Some? ==> EndsWith(r.value, NormalisedName(fileName))
  {
    if !AcceptsUpload(fileName) then None
    else
      var name := NormalisedName(fileName);
      Some(JoinPath(tempDir, if name == "" then DefaultLocalName else name))
  }

  // ---------------------------------------------------------------------------
  // Reply text
  // ---------------------------------------------------------------------------

  /** `text[:3500] + ("\n..." if len(text) > 3500 else "")`. */
  function Preview(text: string): (r: string)
    ensures |text| <= PreviewLimit ==> r == text
    ensures |text| > PreviewLimit ==> r == text[..PreviewLimit] + ContinuationMarker
    ensures |r| <= PreviewLimit + |ContinuationMarker|
    ensures r == "" <==> text == ""
  {
    var head := if |text| <= PreviewLimit then text else text[..PreviewLimit];
    head + (if |text| > PreviewLimit then ContinuationMarker else "")
  }

  /** `preview or "Текст не обнаружен."`: the text sent after a successful
      extraction. */
  function SuccessReply(text: string): (r: string)
    ensures text == "" ==> r == NoTextMessage
    ensures text != "" ==> r == Preview(text)
    ensures r != ""
  {
    var preview := Preview(text);
    if preview != "" then preview else NoTextMessage
  }

  /** Every reply after a successful extraction fits in one message, and a
      cut preview is exactly 3504 characters long. */
  lemma {:induction false} ReplyFitsMessage(text: string)
    ensures |SuccessReply(text)| <= MessageLimit
    ensures |text| > PreviewLimit ==> |SuccessReply(text)| == 3504
    ensures |text| <= PreviewLimit ==> SuccessReply(text) == (if text == "" then NoTextMessage else text)
  {
  }

  /** The reply to the outcome of an extraction: the exception's text after
      the failure prefix, or the preview of the text. */
  function ReplyTo(outcome: Result<string, ExtractError>): (r: string)
    ensures outcome.Failure? ==> r == FailurePrefix + outcome.error.Message()
    ensures outcome.Success? ==> r == SuccessReply(outcome.value)
    ensures r != ""
  {
    match outcome
    case Failure(e) => FailurePrefix + e.Message()
    case Success(text) => SuccessReply(text)
  }

  /** What the handler replies to an uploaded document: the rejection, the
      extraction failure with the exception's text, or the preview. Once the
      file is downloaded, the user always gets a non-empty reply. */
  function HandleDocument(fileName: Option<string>, tempDir: string, readers: Readers): (r: string)
    ensures !AcceptsUpload(fileName) ==> r == RejectMessage
    ensures AcceptsUpload(fileName) ==>
              match ExtractTextFromFile(DownloadPath(fileName, tempDir).value, readers)
              case Failure(e) => r == FailurePrefix + e.Message()
              case Success(t) => r == SuccessReply(t)
    ensures r != ""
  {
    match DownloadPath(fileName, tempDir)
    case None => RejectMessage
    case Some(localPath) => ReplyTo(ExtractTextFromFile(localPath, readers))
  }

  /** A missing file name is always rejected, before any download and
      whatever the file would contain. */
  lemma {:induction false} MissingNameRejected(tempDir: string, readers: Readers)
    ensures DownloadPath(None, tempDir) == None
    ensures HandleDocument(None, tempDir, readers) == RejectMessage
  {
  }

  /** The `or "resume"` fallback never takes effect: an accepted name is
      never empty. */
  lemma {:induction false} AcceptedNameNonEmpty(fileName: Option<string>)
    requires AcceptsUpload(fileName)
    ensures NormalisedName(fileName) != ""
  {
  }

  // ---------------------------------------------------------------------------
  // Filter versus extractor
  // ---------------------------------------------------------------------------

  /** An accepted upload never reaches the wrong handler: the extractor either
      dispatches it to the format its suffix names, or rejects it. */
  lemma {:induction false} AcceptedNeverMisrouted(name: string, tempDir: string)
    requires AcceptsUpload(Some(name))
    ensures var f := NameFormat(Lower(name)).value;
            var local := DownloadPath(Some(name), tempDir).value;
            Classify(local) == Some(f) || Classify(local) == None
  {
    var n := Lower(name);
    var f := NameFormat(n).value;
    var local := DownloadPath(Some(name), tempDir).value;
    LowerIdempotent(name);
    SuffixRoutesOrRejects(local, n, f);
  }

  /** A path ending in a lower-case name that ends in `f`'s suffix goes to
      `f`'s handler or to none. */
  lemma {:induction false} SuffixRoutesOrRejects(local: string, n: string, f: Format)
    requires EndsWith(local, n) && Lower(n) == n && EndsWith(n, Suffix(f))
    ensures Classify(local) == Some(f) || Classify(local) == None
  {
    LowerSuffix(local, n);
    EndsWithTrans(Lower(local), n, Suffix(f));
    ClassifyOfSuffix(local, f);
  }

  /** The filter and the extractor disagree exactly on names whose part before
      the suffix is dots only: for a name without '/', the download reaches
      the handler its suffix names iff that part has a non-dot character. */
  lemma {:induction false} FilterExtractorMismatch(name: string, tempDir: string)
    requires AcceptsUpload(Some(name))
    requires '/' !in name
    ensures var n := Lower(name);
            var f := NameFormat(n).value;
            Classify(DownloadPath(Some(name), tempDir).value) == Some(f) <==> HasNonDot(n, 0, |n| - |Suffix(f)|)
  {
    var n := Lower(name);
    var f := NameFormat(n).value;
    LowerIdempotent(name);
    LowerKeepsSlashes(name);
    var x := LoweredJoin(tempDir, n);
    ComponentRouting(JoinPath(tempDir, n), x, n, f);
  }

  /** The routing of a path whose lower-cased form is a directory part `x`
      followed by a lower-case name `n` without '/' that ends in `f`'s suffix
      depends only on the name's part before the suffix. */
  lemma {:induction false} ComponentRouting(local: string, x: string, n: string, f: Format)
    requires Lower(local) == x + n
    requires x == "" || x[|x| - 1] == '/'
    requires '/' !in n && EndsWith(n, Suffix(f))
    ensures Classify(local) == Some(f) <==> HasNonDot(n, 0, |n| - |Suffix(f)|)
  {
    var q := x + n;
    assert q[|q| - |n|..] == n;
    EndsWithTrans(q, n, Suffix(f));
    StemInComponent(x, n, |n| - |Suffix(f)|);
    ClassifyOfSuffix(local, f);
  }

  /** The user-visible side of the mismatch: an accepted name such as `.pdf`
      is downloaded and then answered with the extractor's unsupported-type
      error, whatever the file contains. */
  lemma {:induction false} DotOnlyNameReply(name: string, tempDir: string, readers: Readers)
    requires AcceptsUpload(Some(name))
    requires '/' !in name
    requires var n := Lower(name); !HasNonDot(n, 0, |n| - |Suffix(NameFormat(n).value)|)
    ensures HandleDocument(Some(name), tempDir, readers) == FailurePrefix + UnsupportedMessage
  {
    FilterExtractorMismatch(name, tempDir);
    AcceptedNeverMisrouted(name, tempDir);
  }

  /** The other side of the mismatch: an accepted name without '/' that has
      a non-dot character before its suffix is answered from the reader of
      the format that suffix names, and no other reader matters. */
  lemma {:induction false} ProperNameReply(name: string, tempDir: string, readers: Readers)
    requires AcceptsUpload(Some(name))
    requires '/' !in name
    requires var n := Lower(name); HasNonDot(n, 0, |n| - |Suffix(NameFormat(n).value)|)
    ensures HandleDocument(Some(name), tempDir, readers)
            == ReplyTo(Handler(NameFormat(Lower(name)).value, readers))
  {
    FilterExtractorMismatch(name, tempDir);
  }

  /** A file named `.pdf` passes the filter, is downloaded, and is then
      answered with the unsupported-type error. */
  lemma {:induction false} DotPdfUploadExample(tempDir: string, readers: Readers)
    ensures AcceptsUpload(Some(".pdf"))
    ensures HandleDocument(Some(".pdf"), tempDir, readers) == FailurePrefix + UnsupportedMessage
  {
    assert Lower(".pdf") == ".pdf";
    assert EndsWith(".pdf", Suffix(Pdf));
    DotOnlyNameReply(".pdf", tempDir, readers);
  }

  /** Lower-casing the joined download path gives a directory part that is
      empty or ends in '/', followed by the (already lower-case) name. */
  lemma {:induction false} LoweredJoin(dir: string, n: string) returns (x: string)
    requires n != "" && '/' !in n && Lower(n) == n
    ensures Lower(JoinPath(dir, n)) == x + n
    ensures x == "" || x[|x| - 1] == '/'
  {
    var local := JoinPath(dir, n);
    var d := local[..|local| - |n|];
    assert local == d + n;
    assert d == "" || d[|d| - 1] == '/';
    LowerConcat(d, n);
    x := Lower(d);
    LowerAt(d);
  }

  /** Lower-casing keeps a lower-cased suffix. */
  lemma {:induction false} LowerSuffix(s: string, t: string)
    requires EndsWith(s, t) && Lower(t) == t
    ensures EndsWith(Lower(s), t)
  {
    var k := |s| - |t|;
    LowerAt(s);
    LowerAt(t);
    forall i | 0 <= i < |t| ensures Lower(s)[k + i] == t[i] {
      assert s[k + i] == t[i];
      assert Lower(t)[i] == LowerChar(t[i]);
    }
    assert Lower(s)[k..] == t;
  }

  lemma {:induction false} EndsWithTrans(s: string, t: string, u: string)
    requires EndsWith(s, t) && EndsWith(t, u)
    ensures EndsWith(s, u)
  {
    assert s[|s| - |u|..] == t[|t| - |u|..];
  }

  // ---------------------------------------------------------------------------
  // Vacancy buttons and the apply callback
  // ---------------------------------------------------------------------------

  const ApplyPrefix: string := "apply:"

  datatype Vacancy = Vacancy(id: string, title: string)

  /** The three stub vacancies offered by `/search`. */
  const StubVacancies: seq<Vacancy> := [
    Vacancy("v1", "Python Backend Developer"),
    Vacancy("v2", "Data Analyst"),
    Vacancy("v3", "DevOps Engineer")
  ]

  datatype Button = Button(text: string, callbackData: string)

  /** `f"apply:{v['id']}"`. */
  function CallbackData(id: string): (data: string)
    ensures StartsWith(data, ApplyPrefix)
    ensures |data| == |ApplyPrefix| + |id|
    ensures data[|ApplyPrefix|..] == id
  {
    ApplyPrefix + id
  }

  /** `data.split(":", 1)[1]`: everything after the first ':'. Without a ':'
      the index raises, which is the `None` case. */
  function VacancyIdOf(data: string): (r: Option<string>)
    ensures r.None? <==> ':' !in data
    ensures r.Some? ==> exists i :: 0 <= i < |data| && data[i] == ':' && ':' !in data[..i] && r.value == data[i + 1..]
  {
    var i := Find(data, ':');
    if i == -1 then None
    else
      assert ':' !in data[..i];
      Some(data[i + 1..])
  }

  /** Parsing inverts building, whatever the id contains (even ':'). */
  lemma {:induction false} CallbackRoundTrip(id: string)
    ensures VacancyIdOf(CallbackData(id)) == Some(id)
  {
    var data := CallbackData(id);
    assert data[5] == ':';
    assert ':' !in data[..5];
    assert Find(data, ':') == 5;
    assert data[6..] == id;
  }

  /** Any callback routed to `cb_apply` (its data starts with "apply:")
      yields the text after that prefix. */
  lemma {:induction false} ApplyCallbackParses(data: string)
    requires StartsWith(data, ApplyPrefix)
    ensures VacancyIdOf(data) == Some(data[|ApplyPrefix|..])
  {
    assert data == CallbackData(data[|ApplyPrefix|..]);
    CallbackRoundTrip(data[|ApplyPrefix|..]);
  }

  /** The buttons of `build_vacancies_keyboard`, one per vacancy in order. */
  function VacancyButtons(vacancies: seq<Vacancy>): (buttons: seq<Button>)
    ensures |buttons| == |vacancies|
    ensures forall i :: 0 <= i < |buttons| ==>
              buttons[i].text == "Откликнуться: " + vacancies[i].title
              && StartsWith(buttons[i].callbackData, ApplyPrefix)
  {
    if vacancies == [] then []
    else [Button("Откликнуться: " + vacancies[0].title, CallbackData(vacancies[0].id))]
         + VacancyButtons(vacancies[1..])
  }

  /** Pressing any button hands `cb_apply` the id of that button's vacancy. */
  lemma {:induction false} ButtonsRoundTrip(vacancies: seq<Vacancy>)
    ensures forall i :: 0 <= i < |vacancies| ==>
              VacancyIdOf(VacancyButtons(vacancies)[i].callbackData) == Some(vacancies[i].id)
  {
    forall i | 0 <= i < |vacancies|
      ensures VacancyIdOf(VacancyButtons(vacancies)[i].callbackData) == Some(vacancies[i].id)
    {
      ButtonCarriesId(vacancies, i);
      CallbackRoundTrip(vacancies[i].id);
    }
  }

  /** The i-th button's callback data is built from the i-th vacancy's id. */
  lemma {:induction false} ButtonCarriesId(vacancies: seq<Vacancy>, i: nat)
    requires i < |vacancies|
    ensures VacancyButtons(vacancies)[i].callbackData == CallbackData(vacancies[i].id)
  {
    if i > 0 {
      ButtonCarriesId(vacancies[1..], i - 1);
      assert VacancyButtons(vacancies)[i] == VacancyButtons(vacancies[1..])[i - 1];
    }
  }

  lemma StubButtonsRoundTrip()
    ensures |VacancyButtons(StubVacancies)| == 3
    ensures forall i :: 0 <= i < 3 ==>
              VacancyIdOf(VacancyButtons(StubVacancies)[i].callbackData) == Some(StubVacancies[i].id)
  {
    ButtonsRoundTrip(StubVacancies);
  }
}

=== FILE: extract_text.dfy ===
/**
 The text extractor of `utils/extract_text.py`: the file's extension, taken
 from the lower-cased path, picks one of three handlers, and every handler
 ends by stripping whitespace from the edges of its text.

 The parsers are outside the model. For the file at hand, `Readers` holds
 what pdfminer's text-layer extraction, python-docx's paragraph list and the
 UTF-8 text reader produce, or the message of the exception each raises.
 Only the reader of the dispatched format is ever consulted.
 */
module ExtractText {
  import opened Wrappers
  import opened PyStr
  import opened PyPath

  /** The closed set of formats the extractor handles. */
  datatype Format = Pdf | Docx | Txt

  /** The extension, as returned by `splitext` on the lower-cased path, that
      selects each format. */
  function Suffix(f: Format): (s: string)
    ensures |s| >= 1 && s[0] == '.'
    ensures '.' !in s[1..] && '/' !in s[1..]
  {
    match f
    case Pdf => ".pdf"
    case Docx => ".docx"
    case Txt => ".txt"
  }

  /** The format an extension selects: exactly the three suffixes do, every
      other extension (the empty one included) selects none. */
  function FormatOfExtension(ext: string): (r: Option<Format>)
    ensures r.Some? ==> Suffix(r.value) == ext
    ensures r.None? ==> forall f: Format :: Suffix(f) != ext
  {
    if ext == ".pdf" then Some(Pdf)
    else if ext == ".docx" then Some(Docx)
    else if ext == ".txt" then Some(Txt)
    else None
  }

  /** Each suffix selects its own format. */
  lemma FormatOfSuffix(f: Format)
    ensures FormatOfExtension(Suffix(f)) == Some(f)
  {
  }

  /** The format `extract_text_from_file` dispatches `path` to, if any. */
  function Classify(path: string): (r: Option<Format>)
    ensures r.Some? ==> EndsWith(Lower(path), Suffix(r.value))
  {
    var parts := SplitExt(Lower(path));
    assert (parts.0 + parts.1)[|parts.0|..] == parts.1;
    FormatOfExtension(parts.1)
  }

  const UnsupportedMessage: string := "Unsupported file type. Please provide PDF, DOCX, or TXT."

  /** Why no text was produced: the `ValueError` raised for an unsupported
      extension, or an exception raised inside one format's reader. */
  datatype ExtractError =
    | UnsupportedFileType
    | ReaderFailed(format: Format, cause: string)
  {
    /** The text `str(e)` gives for the exception. */
    function Message(): string {
      match this
      case UnsupportedFileType => UnsupportedMessage
      case ReaderFailed(_, cause) => cause
    }
  }

  /** What each reader yields on the file: the text or paragraph list, or the
      message of the exception it raises. */
  datatype Readers = Readers(
    pdfText: Result<string, string>,
    docxParagraphs: Result<seq<string>, string>,
    txtText: Result<string, string>)

  /** The paragraphs the DOCX handler keeps: the non-empty ones, in order.
      Only "" is dropped; whitespace-only paragraphs stay. */
  function NonEmpty(paragraphs: seq<string>): (r: seq<string>)
    ensures |r| <= |paragraphs|
    ensures forall i :: 0 <= i < |r| ==> r[i] != ""
    ensures forall p :: p in r <==> p in paragraphs && p != ""
  {
    if |paragraphs| == 0 then []
    else if paragraphs[0] == "" then NonEmpty(paragraphs[1..])
    else [paragraphs[0]] + NonEmpty(paragraphs[1..])
  }

  /** Filtering commutes with concatenation, so the kept paragraphs keep
      their original order. */
  lemma {:induction false} NonEmptyConcat(a: seq<string>, b: seq<string>)
    ensures NonEmpty(a + b) == NonEmpty(a) + NonEmpty(b)
  {
    if |a| == 0 {
      assert a + b == b;
    } else {
      assert (a + b)[1..] == a[1..] + b;
      NonEmptyConcat(a[1..], b);
    }
  }

  /** The text of a DOCX document: its non-empty paragraphs joined by "\n",
      then stripped. */
  function DocxText(paragraphs: seq<string>): (r: string)
    ensures !HasEdgeSpace(r)
  {
    Strip(Join('\n', NonEmpty(paragraphs)))
  }

  /** `_extract_text_from_pdf`: pdfminer's text, stripped. */
  function ExtractFromPdf(text: Result<string, string>): (r: Result<string, ExtractError>)
    ensures r.Success? <==> text.Success?
    ensures r.Success? ==> !HasEdgeSpace(r.value)
    ensures r.Failure? ==> r.error == ReaderFailed(Pdf, text.error)
  {
    match text
    case Success(t) => Success(Strip(t))
    case Failure(cause) => Failure(ReaderFailed(Pdf, cause))
  }

  /** `_extract_text_from_docx`: the kept paragraphs joined and stripped. */
  function ExtractFromDocx(paragraphs: Result<seq<string>, string>): (r: Result<string, ExtractError>)
    ensures r.Success? <==> paragraphs.Success?
    ensures r.Success? ==> !HasEdgeSpace(r.value)
    ensures r.Failure? ==> r.error == ReaderFailed(Docx, paragraphs.error)
    ensures r.Success? ==> r.value == DocxText(paragraphs.value)
  {
    match paragraphs
    case Success(ps) => Success(DocxText(ps))
    case Failure(cause) => Failure(ReaderFailed(Docx, cause))
  }

  /** `_extract_text_from_txt`: the decoded file contents, stripped. */
  function ExtractFromTxt(text: Result<string, string>): (r: Result<string, ExtractError>)
    ensures r.Success? <==> text.Success?
    ensures r.Success? ==> !HasEdgeSpace(r.value)
    ensures r.Failure? ==> r.error == ReaderFailed(Txt, text.error)
  {
    match text
    case Success(t) => Success(Strip(t))
    case Failure(cause) => Failure(ReaderFailed(Txt, cause))
  }

  /** The handler of one format, applied to the file: it reads only that
      format's reader, and any failure is reported against that format. */
  function Handler(f: Format, readers: Readers): (r: Result<string, ExtractError>)
    ensures r.Success? ==> !HasEdgeSpace(r.value)
    ensures r.Failure? ==> r.error.ReaderFailed? && r.error.format == f
    ensures r.Success? <==> match f
                            case Pdf => readers.pdfText.Success?
                            case Docx => readers.docxParagraphs.Success?
                            case Txt => readers.txtText.Success?
    ensures r.Success? ==> r.value == match f
                                      case Pdf => Strip(readers.pdfText.value)
                                      case Docx => DocxText(readers.docxParagraphs.value)
                                      case Txt => Strip(readers.txtText.value)
    ensures r.Failure? ==> r.error.cause == match f
                                            case Pdf => readers.pdfText.error
                                            case Docx => readers.docxParagraphs.error
                                            case Txt => readers.txtText.error
  {
    match f
    case Pdf => ExtractFromPdf(readers.pdfText)
    case Docx => ExtractFromDocx(readers.docxParagraphs)
    case Txt => ExtractFromTxt(readers.txtText)
  }

  /** `extract_text_from_file`: dispatch on the extension of the lower-cased
      path. An unsupported extension fails before any reader is consulted,
      and a successful result never has whitespace at its edges. */
  function ExtractTextFromFile(path: string, readers: Readers): (r: Result<string, ExtractError>)
    ensures r == Failure(UnsupportedFileType) <==> Classify(path).None?
    ensures r.Success? ==> !HasEdgeSpace(r.value)
    ensures r.Failure? && r.error.ReaderFailed? ==> Classify(path) == Some(r.error.format)
  {
    match Classify(path)
    case Some(f) => Handler(f, readers)
    case None => Failure(UnsupportedFileType)
  }

  // ---------------------------------------------------------------------------
  // Properties of dispatch
  // ---------------------------------------------------------------------------

  /** Dispatch is case-insensitive: a path and its lower-cased form go to the
      same handler and give the same result, so `A.PDF` is read as `a.pdf`. */
  lemma {:induction false} ExtractIgnoresCase(path: string, readers: Readers)
    ensures Classify(Lower(path)) == Classify(path)
    ensures ExtractTextFromFile(Lower(path), readers) == ExtractTextFromFile(path, readers)
  {
    LowerIdempotent(path);
  }

  /** Exactly the three extensions reach a handler: `path` goes to format `f`
      iff its lower-cased form ends in `f`'s suffix and that suffix is an
      extension in the sense of `IsExtensionAt`. */
  lemma {:induction false} ClassifyIff(path: string, f: Format)
    ensures var q := Lower(path);
            Classify(path) == Some(f) <==> EndsWith(q, Suffix(f)) && IsExtensionAt(q, |q| - |Suffix(f)|)
  {
    ExtensionSelects(Lower(path), f);
  }

  /** The extension of `q` selects `f` exactly when `q` ends in `f`'s suffix
      and that suffix is an extension in the sense of `IsExtensionAt`. */
  lemma {:induction false} ExtensionSelects(q: string, f: Format)
    ensures FormatOfExtension(SplitExt(q).1) == Some(f) <==>
              EndsWith(q, Suffix(f)) && IsExtensionAt(q, |q| - |Suffix(f)|)
  {
    var n := |q| - |Suffix(f)|;
    FormatOfSuffix(f);
    if FormatOfExtension(SplitExt(q).1) == Some(f) {
      var (root, ext) := SplitExt(q);
      assert root + ext == q;
      assert q[n..] == ext;
      SplitExtIff(q, n);
    }
    if EndsWith(q, Suffix(f)) {
      SplitExtIff(q, n);
    }
  }

  /** A lower-cased path ending in a supported suffix reaches that suffix's
      handler when its base name has a non-dot character before the suffix,
      and is unsupported otherwise (`/tmp/d/.pdf`, `..docx`). */
  lemma {:induction false} ClassifyOfSuffix(path: string, f: Format)
    requires EndsWith(Lower(path), Suffix(f))
    ensures StemHasNonDot(Lower(path), |path| - |Suffix(f)|) ==> Classify(path) == Some(f)
    ensures !StemHasNonDot(Lower(path), |path| - |Suffix(f)|) ==> Classify(path) == None
  {
    var q := Lower(path);
    assert Classify(path) == FormatOfExtension(SplitExt(q).1);
    SplitExtOfSuffix(q, Suffix(f));
    FormatOfSuffix(f);
  }

  /** An unsupported path fails the same way whatever the file holds: no
      reader is consulted. */
  lemma {:induction false} UnsupportedReadsNothing(path: string, readers: Readers)
    requires Classify(path).None?
    ensures ExtractTextFromFile(path, readers) == Failure(UnsupportedFileType)
    ensures ExtractTextFromFile(path, readers).error.Message() == UnsupportedMessage
  {
  }

  /** Only the dispatched format's reader matters: two files whose readers
      agree on that format give the same result. */
  lemma {:induction false} OnlyDispatchedReaderMatters(path: string, r1: Readers, r2: Readers)
    requires Classify(path) == Some(Pdf) ==> r1.pdfText == r2.pdfText
    requires Classify(path) == Some(Docx) ==> r1.docxParagraphs == r2.docxParagraphs
    requires Classify(path) == Some(Txt) ==> r1.txtText == r2.txtText
    ensures ExtractTextFromFile(path, r1) == ExtractTextFromFile(path, r2)
  {
  }

  /** The TXT path returns the stripped decoded text. */
  lemma {:induction false} TxtIsStrippedContents(path: string, readers: Readers)
    requires Classify(path) == Some(Txt) && readers.txtText.Success?
    ensures ExtractTextFromFile(path, readers) == Success(Strip(readers.txtText.value))
  {
  }

  /** The DOCX path returns the stripped "\n"-join of the non-empty
      paragraphs. */
  lemma {:induction false} DocxIsText(path: string, readers: Readers)
    requires Classify(path) == Some(Docx) && readers.docxParagraphs.Success?
    ensures ExtractTextFromFile(path, readers) == Success(DocxText(readers.docxParagraphs.value))
  {
  }

  /** The PDF path returns the stripped text layer. */
  lemma {:induction false} PdfIsStrippedText(path: string, readers: Readers)
    requires Classify(path) == Some(Pdf) && readers.pdfText.Success?
    ensures ExtractTextFromFile(path, readers) == Success(Strip(readers.pdfText.value))
  {
  }

  /** Normalisation is idempotent: stripping any handler's output again
      leaves it unchanged. */
  lemma {:induction false} ResultIsNormalised(path: string, readers: Readers)
    requires ExtractTextFromFile(path, readers).Success?
    ensures Strip(ExtractTextFromFile(path, readers).value) == ExtractTextFromFile(path, readers).value
  {
    StripFixed(ExtractTextFromFile(path, readers).value);
  }

  /** `A.PDF` and `a.pdf` both reach the PDF handler. */
  lemma UpperCaseExample()
    ensures Classify("A.PDF") == Classify("a.pdf") == Some(Pdf)
  {
    assert Lower("A.PDF") == Lower("a.pdf") == "a.pdf";
    var q := "a.pdf";
    assert q[1] == '.' && q[0] != '.';
    assert HasNonDot(q, 0, 1);
    assert q[1..] == ".pdf";
  }

  /** A base name of dots only before the suffix has no extension:
      `d/.pdf` is rejected. */
  lemma DotOnlyBaseExample()
    ensures Classify("d/.pdf") == None
  {
    var q := "d/.pdf";
    assert Lower(q) == q;
    assert RFind(q, '/') == 1 by { assert q[1] == '/'; }
    assert RFind(q, '.') == 2 by { assert q[2] == '.'; }
  }

  /** Leading dots never start an extension: `..pdf` is rejected. */
  lemma LeadingDotsExample()
    ensures Classify("..pdf") == None
  {
    var q := "..pdf";
    assert Lower(q) == q;
    assert RFind(q, '.') == 1 by { assert q[1] == '.'; }
  }

  /** A name without an extension, or with another one, is rejected. */
  lemma OtherExtensionExample()
    ensures Classify("resume") == None
    ensures Classify("cv.odt") == None
  {
    NoExtensionExample();
    OdtExample();
  }

  lemma NoExtensionExample()
    ensures Classify("resume") == None
  {
    var q := "resume";
    assert Lower(q) == q;
    assert q[|q| - 4..] != ".pdf" && q[|q| - 4..] != ".txt" && q[|q| - 5..] != ".docx";
    NoSuffixRejected(q);
  }

  lemma OdtExample()
    ensures Classify("cv.odt") == None
  {
    var q := "cv.odt";
    assert Lower(q) == q;
    assert q[|q| - 4..] != ".pdf" && q[|q| - 4..] != ".txt" && q[|q| - 5..] != ".docx";
    NoSuffixRejected(q);
  }

  /** A lower-case path that ends in none of the three suffixes is rejected. */
  lemma NoSuffixRejected(q: string)
    requires Lower(q) == q
    requires !EndsWith(q, ".pdf") && !EndsWith(q, ".docx") && !EndsWith(q, ".txt")
    ensures Classify(q) == None
  {
    assert forall f: Format :: !EndsWith(q, Suffix(f));
  }

  // ---------------------------------------------------------------------------
  // Properties of the DOCX handler
  // ---------------------------------------------------------------------------

  /** Empty paragraphs leave no trace: `["Hello", "", "World"]` reads as
      `"Hello\nWorld"`, with no blank line in between. */
  lemma DocxDropsEmptyExample()
    ensures DocxText(["Hello", "", "World"]) == "Hello\nWorld"
  {
    var ps := ["Hello", "", "World"];
    assert ps[1..][1..] == ["World"];
    assert NonEmpty(["World"]) == ["World"];
    assert NonEmpty(ps[1..]) == ["World"];
    assert NonEmpty(ps) == ["Hello", "World"];
    assert Join('\n', ["Hello", "World"]) == "Hello\nWorld";
    StripFixed("Hello\nWorld");
  }

  /** A whitespace-only paragraph is not empty, so it is kept when it lies
      between other text: `["a", " ", "b"]` reads as `"a\n \nb"`. */
  lemma DocxKeepsBlankExample()
    ensures DocxText(["a", " ", "b"]) == "a\n \nb"
  {
    var ps := ["a", " ", "b"];
    assert ps[1..][1..] == ["b"];
    assert NonEmpty(["b"]) == ["b"];
    assert NonEmpty(ps[1..]) == [" ", "b"];
    assert NonEmpty(ps) == ps;
    assert Join('\n', ps[1..]) == " \nb";
    assert Join('\n', ps) == "a\n \nb";
    StripFixed("a\n \nb");
  }

  /** A document with no paragraphs, or only empty ones, reads as "". */
  lemma {:induction false} DocxAllEmpty(paragraphs: seq<string>)
    requires forall i :: 0 <= i < |paragraphs| ==> paragraphs[i] == ""
    ensures DocxText(paragraphs) == ""
  {
    if |paragraphs| == 0 {
      assert Strip("") == "";
    } else {
      DocxAllEmpty(paragraphs[1..]);
    }
  }

  /** Paragraph boundaries survive as newlines: when no paragraph contains a
      newline, splitting the joined text on "\n" gives back exactly the kept
      paragraphs in their order. */
  lemma {:induction false} DocxParagraphsRecoverable(paragraphs: seq<string>)
    requires NonEmpty(paragraphs) != []
    requires forall i, k :: 0 <= i < |paragraphs| && 0 <= k < |paragraphs[i]| ==> paragraphs[i][k] != '\n'
    ensures Split(Join('\n', NonEmpty(paragraphs)), '\n') == NonEmpty(paragraphs)
  {
    var kept := NonEmpty(paragraphs);
    forall i, k | 0 <= i < |kept| && 0 <= k < |kept[i]| ensures kept[i][k] != '\n' {
      assert kept[i] in paragraphs;
    }
    SplitJoin('\n', kept);
  }
}

=== FILE: pypath.dfy ===
/**
 The two `os.path` functions (POSIX flavour) on the path between the bot and
 the extractor: `splitext`, which decides the extension the extractor
 dispatches on, and the two-argument `join` that builds the download path.
 */
module PyPath {
  import opened PyStr

  /** True when some character of `p[lo..hi]` is not a dot. */
  predicate HasNonDot(p: string, lo: int, hi: int)
    requires 0 <= lo <= hi <= |p|
  {
    exists k :: lo <= k < hi && p[k] != '.'
  }

  /** `os.path.splitext(p)`: the extension starts at the last '.' that comes
      after the last '/', provided the base name has a non-dot character
      before that '.'; otherwise the extension is empty. Leading dots of the
      base name therefore never start an extension. */
  function SplitExt(p: string): (r: (string, string))
    ensures r.0 + r.1 == p
    ensures r.1 == "" || (r.1[0] == '.' && '.' !in r.1[1..] && '/' !in r.1[1..])
  {
    var sep := RFind(p, '/');
    var dot := RFind(p, '.');
    if dot > sep && HasNonDot(p, sep + 1, dot) then
      assert p[..dot] + p[dot..] == p;
      (p[..dot], p[dot..])
    else
      assert p + "" == p;
      (p, "")
  }

  /** The loop of `genericpath._splitext`: after finding the last separator
      and the last dot, it walks over the leading dots of the base name and
      splits at the first non-dot character it meets before the last dot. */
  method SplitExtScan(p: string) returns (root: string, ext: string)
    ensures (root, ext) == SplitExt(p)
  {
    var sepIndex := RFind(p, '/');
    var dotIndex := RFind(p, '.');
    if dotIndex > sepIndex {
      var filenameIndex := sepIndex + 1;
      while filenameIndex < dotIndex
        invariant sepIndex + 1 <= filenameIndex <= dotIndex
        invariant forall k :: sepIndex + 1 <= k < filenameIndex ==> p[k] == '.'
      {
        if p[filenameIndex] != '.' {
          return p[..dotIndex], p[dotIndex..];
        }
        filenameIndex := filenameIndex + 1;
      }
    }
    return p, p[..0];
  }

  /** An independent description of a non-empty extension starting at `n`:
      `p[n]` is a dot, no dot or slash follows it, and somewhere before it in
      the same path component there is a character other than a dot. */
  ghost predicate IsExtensionAt(p: string, n: int) {
    && 0 <= n < |p|
    && p[n] == '.'
    && (forall m :: n < m < |p| ==> p[m] != '.' && p[m] != '/')
    && StemHasNonDot(p, n)
  }

  /** Some character before `n`, in the same path component as `n`, is
      neither a dot nor a slash. */
  ghost predicate StemHasNonDot(p: string, n: int)
    requires 0 <= n <= |p|
  {
    exists k :: 0 <= k < n && p[k] != '.' && p[k] != '/' && NoSlashBetween(p, k, n)
  }

  predicate NoSlashBetween(p: string, k: int, n: int)
    requires 0 <= k <= n <= |p|
  {
    forall m :: k < m < n ==> p[m] != '/'
  }

  /** splitext yields the suffix from `n` exactly when `n` satisfies the
      independent description above. */
  lemma {:induction false} SplitExtIff(p: string, n: int)
    requires 0 <= n < |p|
    ensures SplitExt(p).1 == p[n..] <==> IsExtensionAt(p, n)
  {
    var sep := RFind(p, '/');
    var dot := RFind(p, '.');
    if IsExtensionAt(p, n) {
      var k :| 0 <= k < n && p[k] != '.' && p[k] != '/' && NoSlashBetween(p, k, n);
      assert dot == n;
      assert sep < k;
      assert HasNonDot(p, sep + 1, dot);
    }
    if SplitExt(p).1 == p[n..] {
      assert |p[n..]| > 0;
      assert dot == n;
      var k :| sep + 1 <= k < dot && p[k] != '.';
      assert NoSlashBetween(p, k, n);
    }
  }

  /** The extension is empty exactly when no position satisfies the
      description. */
  lemma {:induction false} SplitExtEmptyIff(p: string)
    ensures SplitExt(p).1 == "" <==> forall n :: 0 <= n < |p| ==> !IsExtensionAt(p, n)
  {
    var ext := SplitExt(p).1;
    if ext != "" {
      var n := |p| - |ext|;
      assert p[n..] == ext;
      SplitExtIff(p, n);
    } else {
      forall n | 0 <= n < |p| ensures !IsExtensionAt(p, n) {
        SplitExtIff(p, n);
      }
    }
  }

  /** A name ending in `suffix` (a dot followed by neither dots nor slashes)
      has either that suffix or no extension at all, and which of the two
      depends only on whether the base name has a non-dot character before
      the suffix. */
  lemma {:induction false} SplitExtOfSuffix(p: string, suffix: string)
    requires EndsWith(p, suffix)
    requires |suffix| >= 1 && suffix[0] == '.'
    requires '.' !in suffix[1..] && '/' !in suffix[1..]
    ensures StemHasNonDot(p, |p| - |suffix|) ==> SplitExt(p).1 == suffix
    ensures !StemHasNonDot(p, |p| - |suffix|) ==> SplitExt(p).1 == ""
  {
    var n := |p| - |suffix|;
    assert p[n..] == suffix;
    forall m | n < m < |p| ensures p[m] != '.' && p[m] != '/' {
      assert p[m] == suffix[1..][m - n - 1];
    }
    SplitExtIff(p, n);
  }

  /** `os.path.join(a, b)` for two arguments: an absolute `b` replaces `a`,
      otherwise a '/' is inserted unless `a` is empty or already ends in one. */
  function JoinPath(a: string, b: string): (r: string)
    ensures EndsWith(r, b)
    ensures |b| > 0 && b[0] == '/' ==> r == b
  {
    if |b| > 0 && b[0] == '/' then b
    else if a == "" || a[|a| - 1] == '/' then a + b
    else a + "/" + b
  }

  /** In a path whose last component `n` follows a '/' (or starts the path),
      the characters before position `j` of `n` that count for the stem are
      exactly those of `n[..j]`. */
  lemma {:induction false} StemInComponent(x: string, n: string, j: int)
    requires x == "" || x[|x| - 1] == '/'
    requires '/' !in n
    requires 0 <= j <= |n|
    ensures StemHasNonDot(x + n, |x| + j) <==> HasNonDot(n, 0, j)
  {
    var p := x + n;
    if HasNonDot(n, 0, j) {
      var k :| 0 <= k < j && n[k] != '.';
      assert p[|x| + k] == n[k];
      assert NoSlashBetween(p, |x| + k, |x| + j) by {
        forall m | |x| + k < m < |x| + j ensures p[m] != '/' {
          assert p[m] == n[m - |x|];
        }
      }
    }
    if StemHasNonDot(p, |x| + j) {
      var k :| 0 <= k < |x| + j && p[k] != '.' && p[k] != '/' && NoSlashBetween(p, k, |x| + j);
      assert |x| > 0 ==> p[|x| - 1] == '/';
      assert k >= |x|;
      assert n[k - |x|] == p[k];
    }
  }
}

=== FILE: pystr.dfy ===
/**
 The Python `str` built-ins the extractor and the bot rely on, over Dafny's
 Unicode `char` so that lengths and slices count code points as Python does:
 `strip()`, `lower()`, `endswith()`, `rfind()`, `sep.join()` and `split(sep)`.
 */
module PyStr {

  // ---------------------------------------------------------------------------
  // Whitespace and strip()
  // ---------------------------------------------------------------------------

  /** The characters for which CPython's `str.isspace()` is true: bidirectional
      class WS, B or S, or general category Zs. */
  predicate IsSpace(c: char) {
    var n := c as int;
    || (0x09 <= n <= 0x0D) || (0x1C <= n <= 0x20)
    || n == 0x85 || n == 0xA0 || n == 0x1680
    || (0x2000 <= n <= 0x200A)
    || n == 0x2028 || n == 0x2029 || n == 0x202F || n == 0x205F || n == 0x3000
  }

  predicate AllSpace(s: string) {
    forall k :: 0 <= k < |s| ==> IsSpace(s[k])
  }

  lemma {:induction false} AllSpaceConcat(a: string, b: string)
    requires AllSpace(a) && AllSpace(b)
    ensures AllSpace(a + b)
  {
    assert forall k :: |a| <= k < |a + b| ==> (a + b)[k] == b[k - |a|];
  }

  /** True when `s` begins or ends with whitespace, i.e. `s.strip() != s`. */
  predicate HasEdgeSpace(s: string) {
    |s| > 0 && (IsSpace(s[0]) || IsSpace(s[|s| - 1]))
  }

  /** `s.lstrip()`: the suffix of `s` left after its leading whitespace. */
  function TrimStart(s: string): (r: string)
    ensures |r| <= |s| && r == s[|s| - |r|..]
    ensures AllSpace(s[..|s| - |r|])
    ensures r == [] || !IsSpace(r[0])
  {
    if |s| > 0 && IsSpace(s[0]) then
      var r := TrimStart(s[1..]);
      assert s[..|s| - |r|] == [s[0]] + s[1..][..|s| - 1 - |r|];
      r
    else s
  }

  /** `s.rstrip()`: the prefix of `s` left after its trailing whitespace. */
  function TrimEnd(s: string): (r: string)
    ensures |r| <= |s| && r == s[..|r|]
    ensures AllSpace(s[|r|..])
    ensures r == [] || !IsSpace(r[|r| - 1])
  {
    if |s| > 0 && IsSpace(s[|s| - 1]) then
      var r := TrimEnd(s[..|s| - 1]);
      assert forall k :: |r| <= k < |s| - 1 ==> s[k] == s[..|s| - 1][k];
      r
    else s
  }

  /** `s.strip()` with no argument: whitespace is removed at both edges only. */
  function Strip(s: string): (r: string)
    ensures |r| <= |s|
    ensures !HasEdgeSpace(r)
  {
    TrimEnd(TrimStart(s))
  }

  /** Strip keeps a contiguous window of `s` and everything cut off is whitespace. */
  lemma {:induction false} StripWindow(s: string) returns (i: nat, j: nat)
    ensures i <= j <= |s|
    ensures Strip(s) == s[i..j]
    ensures AllSpace(s[..i]) && AllSpace(s[j..])
  {
    var t := TrimStart(s);
    var u := TrimEnd(t);
    i := |s| - |t|;
    j := i + |u|;
    assert Strip(s) == u;
    assert s[i..] == t;
    assert s[i..j] == u;
    assert s[j..] == t[|u|..];
  }

  /** lstrip() stops at the first non-whitespace character. */
  lemma {:induction false} TrimStartAt(s: string, i: nat)
    requires i <= |s| && AllSpace(s[..i])
    requires i < |s| ==> !IsSpace(s[i])
    ensures TrimStart(s) == s[i..]
  {
    if i > 0 {
      assert s[..i][0] == s[0];
      assert s[1..][..i - 1] == s[..i][1..];
      TrimStartAt(s[1..], i - 1);
      assert s[1..][i - 1..] == s[i..];
    }
  }

  /** rstrip() stops after the last non-whitespace character. */
  lemma {:induction false} TrimEndAt(s: string, m: nat)
    requires m <= |s| && AllSpace(s[m..])
    requires 0 < m ==> !IsSpace(s[m - 1])
    ensures TrimEnd(s) == s[..m]
    decreases |s| - m
  {
    if m < |s| {
      assert s[m..][|s| - 1 - m] == s[|s| - 1];
      var s' := s[..|s| - 1];
      assert s'[m..] == s[m..][..|s| - 1 - m];
      TrimEndAt(s', m);
      assert s'[..m] == s[..m];
    } else {
      assert s[..m] == s;
    }
  }

  /** Strip is the unique window with whitespace-only margins and no edge
      whitespace: any such window is what `strip()` returns. */
  lemma {:induction false} StripUnique(s: string, i: nat, j: nat)
    requires i <= j <= |s|
    requires AllSpace(s[..i]) && AllSpace(s[j..])
    requires !HasEdgeSpace(s[i..j])
    ensures Strip(s) == s[i..j]
  {
    if i == j {
      // s is whitespace throughout, so nothing survives the left trim
      AllSpaceConcat(s[..i], s[j..]);
      assert s[..i] + s[j..] == s;
      StripAllSpace(s);
    } else {
      StripInner(s, i, j);
    }
  }

  lemma {:induction false} StripAllSpace(s: string)
    requires AllSpace(s)
    ensures Strip(s) == []
  {
    assert s[..|s|] == s;
    TrimStartAt(s, |s|);
  }

  lemma {:induction false} StripInner(s: string, i: nat, j: nat)
    requires i < j <= |s|
    requires AllSpace(s[..i]) && AllSpace(s[j..])
    requires !IsSpace(s[i]) && !IsSpace(s[j - 1])
    ensures Strip(s) == s[i..j]
  {
    TrimStartAt(s, i);
    TrimEndOfSuffix(s, i, j);
  }

  lemma {:induction false} TrimEndOfSuffix(s: string, i: nat, j: nat)
    requires i < j <= |s|
    requires AllSpace(s[j..]) && !IsSpace(s[j - 1])
    ensures TrimEnd(s[i..]) == s[i..j]
  {
    var t := s[i..];
    assert t[j - i..] == s[j..];
    assert t[j - i - 1] == s[j - 1];
    TrimEndAt(t, j - i);
  }

  /** Normalisation is idempotent: stripping a stripped string changes nothing. */
  lemma {:induction false} StripIdempotent(s: string)
    ensures Strip(Strip(s)) == Strip(s)
  {
    var r := Strip(s);
    assert r[..0] == [] && r[|r|..] == [];
    assert r[0..|r|] == r;
    StripUnique(r, 0, |r|);
  }

  /** A string without edge whitespace is a fixed point of strip(). */
  lemma {:induction false} StripFixed(s: string)
    requires !HasEdgeSpace(s)
    ensures Strip(s) == s
  {
    assert s[..0] == [] && s[|s|..] == [];
    assert s[0..|s|] == s;
    StripUnique(s, 0, |s|);
  }

  /** A string is stripped to "" exactly when it is whitespace throughout. */
  lemma {:induction false} StripEmptyIff(s: string)
    ensures Strip(s) == "" <==> AllSpace(s)
  {
    var i, j := StripWindow(s);
    if AllSpace(s) {
      assert s[..0] == [] && s[0..0] == [] && s[0..] == s;
      StripUnique(s, 0, 0);
    }
    if Strip(s) == "" {
      forall k | 0 <= k < |s| ensures IsSpace(s[k]) {
        if k < i { assert s[..i][k] == s[k]; } else { assert s[j..][k - j] == s[k]; }
      }
    }
  }

  // ---------------------------------------------------------------------------
  // lower()
  // ---------------------------------------------------------------------------

  /** Lower-case mapping of one code point, for the one-to-one mappings of
      ASCII, Latin-1 and the basic Cyrillic block. */
  function LowerChar(c: char): (d: char)
    ensures d == '.' <==> c == '.'
    ensures d == '/' <==> c == '/'
    ensures ('a' <= c <= 'z') ==> d == c
    ensures ('A' <= c <= 'Z') ==> 'a' <= d <= 'z' && d as int - 'a' as int == c as int - 'A' as int
    ensures !(0x41 <= c as int <= 0x5A || 0xC0 <= c as int <= 0xDE || 0x400 <= c as int <= 0x42F) ==> d == c
  {
    var n := c as int;
    if 0x41 <= n <= 0x5A then (n + 0x20) as char            // A-Z
    else if 0xC0 <= n <= 0xDE && n != 0xD7 then (n + 0x20) as char  // Latin-1 capitals
    else if 0x410 <= n <= 0x42F then (n + 0x20) as char     // Cyrillic А-Я
    else if 0x400 <= n <= 0x40F then (n + 0x50) as char     // Cyrillic Ѐ-Џ
    else c
  }

  /** `s.lower()`: the code points of `s`, each lower-cased. */
  function Lower(s: string): (r: string)
    ensures |r| == |s|
  {
    if s == [] then [] else [LowerChar(s[0])] + Lower(s[1..])
  }

  /** lower() maps each code point on its own. */
  lemma {:induction false} LowerAt(s: string)
    ensures forall k :: 0 <= k < |s| ==> Lower(s)[k] == LowerChar(s[k])
  {
    if s != [] {
      LowerAt(s[1..]);
    }
  }

  /** lower() neither creates nor removes a '/'. */
  lemma {:induction false} LowerKeepsSlashes(s: string)
    ensures '/' in Lower(s) <==> '/' in s
  {
    LowerAt(s);
    if '/' in s {
      var k :| 0 <= k < |s| && s[k] == '/';
      assert Lower(s)[k] == '/';
    }
  }

  /** Lower-casing a lower-case code point leaves it unchanged. */
  lemma LowerCharIdempotent(c: char)
    ensures LowerChar(LowerChar(c)) == LowerChar(c)
  {
  }

  /** Lower-casing twice is lower-casing once. */
  lemma {:induction false} LowerIdempotent(s: string)
    ensures Lower(Lower(s)) == Lower(s)
  {
    var l := Lower(s);
    LowerAt(s);
    LowerAt(l);
    forall k | 0 <= k < |l| ensures Lower(l)[k] == l[k] {
      LowerCharIdempotent(s[k]);
    }
  }

  /** lower() works code point by code point, so it distributes over `+`. */
  lemma {:induction false} LowerConcat(a: string, b: string)
    ensures Lower(a + b) == Lower(a) + Lower(b)
  {
    if a != [] {
      assert (a + b)[1..] == a[1..] + b;
      LowerConcat(a[1..], b);
    } else {
      assert a + b == b;
    }
  }

  // ---------------------------------------------------------------------------
  // endswith(), rfind()
  // ---------------------------------------------------------------------------

  /** `s.endswith(suffix)`. */
  predicate EndsWith(s: string, suffix: string) {
    |suffix| <= |s| && s[|s| - |suffix|..] == suffix
  }

  /** `s.find(c)`: the index of the first occurrence of `c`, or -1. */
  function Find(s: string, c: char): (i: int)
    ensures -1 <= i < |s|
    ensures 0 <= i ==> s[i] == c
    ensures i == -1 ==> c !in s
    ensures forall k :: 0 <= k < i ==> s[k] != c
  {
    if |s| == 0 then -1
    else if s[0] == c then 0
    else var j := Find(s[1..], c); if j == -1 then -1 else j + 1
  }

  /** `s.startswith(prefix)`. */
  predicate StartsWith(s: string, prefix: string) {
    |prefix| <= |s| && s[..|prefix|] == prefix
  }

  /** `s.rfind(c)`: the index of the last occurrence of `c`, or -1. */
  function RFind(s: string, c: char): (i: int)
    ensures -1 <= i < |s|
    ensures 0 <= i ==> s[i] == c
    ensures forall k :: i < k < |s| ==> s[k] != c
  {
    if |s| == 0 then -1
    else if s[|s| - 1] == c then |s| - 1
    else RFind(s[..|s| - 1], c)
  }

  // ---------------------------------------------------------------------------
  // sep.join(parts) and s.split(sep)
  // ---------------------------------------------------------------------------

  /** `sep.join(parts)` for a one-character separator. */
  function Join(sep: char, parts: seq<string>): (r: string)
    ensures |parts| == 1 ==> r == parts[0]
    ensures |parts| == 0 ==> r == ""
    ensures |parts| >= 1 ==> StartsWith(r, parts[0]) && EndsWith(r, parts[|parts| - 1])
  {
    if |parts| == 0 then ""
    else if |parts| == 1 then parts[0]
    else parts[0] + [sep] + Join(sep, parts[1..])
  }

  /** `s.split(sep)` for a one-character separator and no split limit. */
  function Split(s: string, sep: char): (r: seq<string>)
    ensures |r| >= 1
    ensures forall i, k :: 0 <= i < |r| && 0 <= k < |r[i]| ==> r[i][k] != sep
  {
    if |s| == 0 then [""]
    else
      var rest := Split(s[1..], sep);
      if s[0] == sep then [""] + rest else [[s[0]] + rest[0]] + rest[1..]
  }

  /** Splitting at the first separator: the part before it comes first. */
  lemma {:induction false} SplitAtFirst(a: string, sep: char, b: string)
    requires forall k :: 0 <= k < |a| ==> a[k] != sep
    ensures Split(a + [sep] + b, sep) == [a] + Split(b, sep)
  {
    if |a| == 0 {
      assert a + [sep] + b == [sep] + b;
      assert ([sep] + b)[1..] == b;
    } else {
      assert (a + [sep] + b)[1..] == a[1..] + [sep] + b;
      SplitAtFirst(a[1..], sep, b);
      assert [a[0]] + a[1..] == a;
    }
  }

  /** A string without the separator does not split. */
  lemma {:induction false} SplitNoSep(a: string, sep: char)
    requires forall k :: 0 <= k < |a| ==> a[k] != sep
    ensures Split(a, sep) == [a]
  {
    if |a| > 0 {
      SplitNoSep(a[1..], sep);
      assert [a[0]] + a[1..] == a;
    }
  }

  /** join and split are inverse: parts that do not contain the separator are
      recovered exactly from their join. */
  lemma {:induction false} SplitJoin(sep: char, parts: seq<string>)
    requires |parts| >= 1
    requires forall i, k :: 0 <= i < |parts| && 0 <= k < |parts[i]| ==> parts[i][k] != sep
    ensures Split(Join(sep, parts), sep) == parts
  {
    if |parts| == 1 {
      SplitNoSep(parts[0], sep);
    } else {
      SplitJoin(sep, parts[1..]);
      SplitAtFirst(parts[0], sep, Join(sep, parts[1..]));
      assert [parts[0]] + parts[1..] == parts;
    }
  }
}

=== FILE: wrappers.dfy ===
/** Failure-carrying values used in place of Python's `None` and exceptions. */
module Wrappers {

  /** A value that may be missing (Python's `Optional`). */
  datatype Option<+T> = None | Some(value: T)

  /** Either a value or the error that an exception would have carried. */
  datatype Result<+T, +E> = Success(value: T) | Failure(error: E)
}
